=== FILE: README.md ===
# Character locomotion: state graph and controller decisions

A Dafny model of the player character's locomotion core in a three.js
entity/component game:

- **the locomotion state graph** (`src/player-state.js`). There are five states: idle, walk, walk-back, run and jump.
  - Each state's `Update` switches on an integer intent code and may ask the machine for another state.
  - Each state's `Enter` sets up its animation action. With a previous state there is a 0.25 crossfade from its action. Walk and walk-back entered from run, and run entered from walk, keep the previous action's phase. Every other case with a previous state restarts the playhead. Without a previous state the action is only played. Jump plays once and clamps.
  - The jump state leaves only when the mixer's "finished" event reaches the callback it subscribed on `Enter`. It revokes that callback on `Exit` and before it switches away.
- **the controller's discrete and scalar decisions** (`src/player-entity.js`):
  - the readiness guard at the top of `Update`;
  - the threshold classification of the stick into an intent;
  - the grounded-only jump launch;
  - gravity and the airborne gain and damping;
  - the collision response.

All of it is pure functions over `int`, `real`, `string`, sets and maps.

Modules:

| file | module | contents |
|---|---|---|
| `wrappers.dfy` | `Wrappers` | `Option` |
| `animation.dfy` | `Animation` | action record, animation names, crossfade window, re-timing |
| `player_state.dfy` | `PlayerState` | `LocoState`, `Step`, `JumpUpdate`, `FinishTarget`, `Cleanup`, `Subscribe`, `Enter` |
| `character_fsm.dfy` | `CharacterFsm` | registry, `Construct`, `SetState`, `Update`, the "finished" dispatch, the no-stale-callback invariant `Valid` |
| `locomotion_traces.dfy` | `LocomotionTraces` | runs over intent sequences, the name-level reference table, the startup scenario |
| `vector.dfy` | `Vector` | `Vec3` and its operations |
| `player_entity.dfy` | `Controller` | classification, tick stages, collision pass, the whole tick |
| `jump_lifecycle.dfy` | `JumpLifecycle` | the `Live` invariant (an active jump is still subscribed) and what it implies inside the tick |

Modelling choices:

- **Mixer callbacks.** The mixer's "finished" listeners are a set of jump-instance ids. Every `SetState` builds a fresh instance. A jump instance gets the next id, which stands for its own `_FinishedCallback` closure.
- **The state-machine base class.** `SetState` is modelled as: the old state's `Exit`, then a fresh instance of the registered class, then its `Enter(prevState)`. The base class file (`finite-state-machine.js`) is not part of this model.
- **Tick inputs.** A tick takes these as inputs:
  - the stick `(x, y)` and the jump key;
  - whether the mixer's update fired "finished";
  - the forward axis after the turn;
  - the decay factor `exp(-4 dt) - 1`;
  - the result of the capsule intersection query.
- **Readiness guard.** `Update` returns before any physics while no state is active (`src/player-entity.js:160-163`). Movement does not run before the animations load.
- **Re-phasing pairs.** Re-phasing applies only to walk and walk-back entered from run, and to run entered from walk (`src/player-state.js:96`, `149`, `203`). Walk entered from walk-back restarts its playhead.

## Model

| member | source | states |
|---|---|---|
| `PlayerState.Step` | src/player-state.js:115-283 | Each non-jump state requests the state its intent code designates (0 idle, 1 walk, 2 run, 3 walk-back, 4 jump), except its own. Any other code requests nothing. Jump never requests a transition from `Update`. No requested name equals the state's own name. |
| `PlayerState.JumpUpdate` | src/player-state.js:75-77 | Jump's `Update` keeps the same instance and only records the intent. |
| `PlayerState.FinishTarget` | src/player-state.js:49-62 | A finished jump goes to idle, walk, run or walk-back for recorded intents 0 to 3. A recorded 4, any other value, or no record leads nowhere. The target is never jump. |
| `PlayerState.Cleanup` | src/player-state.js:65-73 | Jump's `Exit` and `_Cleanup` remove exactly that instance's callback and keep all others. Other states' `Exit` removes nothing. |
| `PlayerState.Subscribe` | src/player-state.js:30-33 | Entering jump adds that instance's callback and nothing else. Other states subscribe nothing. |
| `PlayerState.Enter` | src/player-state.js:30-263 | Only the entered state's action changes, and its clip length is kept. Without a previous state the action is only played. With one, it crossfades from the previous state's action over 0.25 with warping, and is enabled and playing. Jump is reset to 0 and set to play once and clamp. Walk and walk-back from run, and run from walk, take over the previous action's phase (time / duration) and keep their weight and time scale. Every other case restarts at time 0 with weight 1 and time scale 1. |
| `Animation.Retime` | src/player-state.js:96-98 | Scaling the previous playhead by the clip-length ratio gives the same fraction of the cycle (needs positive durations). Nothing else in the action changes. |
| `PlayerState.LocoState.Name` | src/player-state.js:26-28 | Every state's `Name` getter returns one of the five animation names: idle, walk, walkBack, run or jump. The cited getter is jump's; the same getter appears for idle, walk, walk-back and run at lines 85-87, 138-140, 192-194 and 246-248. |
| `CharacterFsm.RegistryNames` | src/player-entity.js:23-29 | Exactly the five names idle, walk, walkBack, run and jump are registered. Each one builds a state whose `Name` getter returns that name. |
| `CharacterFsm.Construct` | src/player-entity.js:23-29 | Each of the five registered names builds a state whose `Name` getter returns that same name. A new jump has no recorded intent. |
| `CharacterFsm.SetState` | src/player-state.js:30-73 | After a transition, the only subscribed callback is the new jump's own, or none at all. An exited jump's callback is always gone. The new state is entered with the old one as `prevState`. |
| `CharacterFsm.Update` | src/player-entity.js:173 | With no active state nothing changes. An active jump only records the intent. Any other state either stays unchanged or moves to the state its table names, building exactly one new instance. The no-stale-callback invariant is kept. On a transition the new state is entered with the old one as `prevState`. |
| `CharacterFsm.Finished` | src/player-state.js:47-63 | With no subscribed callback the event changes nothing. Otherwise the jump unsubscribes, then moves where its recorded intent says, or stays put, now unsubscribed. In both cases no callback remains. When it moves, the target is entered with the jump as `prevState`. |
| `LocomotionTraces.TraceFollowsTable` | src/player-state.js:115-283 | Over any sequence of intents, the visited states are exactly the ones the name-level reference table gives. The run makes one transition per change of name. |
| `LocomotionTraces.RunCountsUp` | src/player-state.js:115-283 | Each tick asks for at most one state change, so a run over n intents builds at most n new state instances, and never fewer than zero. |
| `LocomotionTraces.RepeatedIntentIsNoTransition` | src/player-state.js:115-283 | Feeding the same intent twice causes no second transition: same state name, actions, subscriptions and instance count. |
| `LocomotionTraces.JumpIgnoresIntents` | src/player-state.js:75-77 | In jump, any non-empty sequence of intents leaves the same instance active with the last intent recorded, and changes nothing else. |
| `LocomotionTraces.StartupScenario` | src/player-entity.js:125-127 | From the idle state set at load, the intents 0,0,1,1,2,2,0 visit idle, idle, walk, walk, run, run, idle with exactly three transitions. |
| `Controller.Init` | src/player-entity.js:138-141 | The controller starts with no active state, at rest, off the floor, with the capsule from (0, 0.35, 0) to (0, 1, 0) of radius 0.35. |
| `Controller.AnimationsLoaded` | src/player-entity.js:124-127 | When all clips have loaded and no state is active yet, the machine goes to idle with no callback subscribed. The physics state is untouched. |
| `Controller.Position` | src/player-entity.js:234 | The position written back to the transform and the entity is the capsule's end point. |
| `Controller.Classify` | src/player-entity.js:165-171 | The classification always yields 0..3 and never 4. It yields 3 iff y < -0.1, and 2 iff y > 0.5. It yields 1 iff -0.1 <= y <= 0.5 and (y > 0.1 or \|x\| > 0.1). It yields 0 iff -0.1 <= y <= 0.1 and \|x\| <= 0.1. |
| `Controller.Accelerate` | src/player-entity.js:209 | The velocity gains the forward axis scaled by 100·y·dt on the floor and by 25·y·dt in the air. |
| `Controller.AirControlIsWeak` | src/player-entity.js:209 | The airborne change of velocity is exactly a quarter of the grounded one, component by component. |
| `Controller.GravityOrJump` | src/player-entity.js:213-224 | A launch happens iff grounded and jump is pressed. A launch sets vertical speed to exactly 30 and applies no gravity. In the air, vertical speed drops by 80·dt and damping is scaled by 0.1. Grounded without a press, nothing changes. Horizontal speed is never touched. |
| `Controller.Damp` | src/player-entity.js:226 | The velocity is scaled by 1 + damping. For a damping factor in (-1, 0], no velocity component changes sign or grows. |
| `Controller.Collide` | src/player-entity.js:239-259 | The floor flag is set iff there is a hit whose normal has positive y. Without a hit, velocity and capsule are unchanged. A hit pushes the capsule by normal·depth. On the floor the velocity is untouched. Off the floor, the velocity's component along every direction orthogonal to the normal is kept. With a unit normal, no velocity remains along the normal. |
| `Controller.SlideKeepsTangent` | src/player-entity.js:249-253 | The slide leaves the velocity's component along any direction orthogonal to the normal unchanged. |
| `Controller.RestingContactIsStable` | src/player-entity.js:239-259 | A capsule resting on flat ground (normal (0,1,0), depth 0) keeps its position and velocity and is on the floor. |
| `Controller.MachineTick` | src/player-entity.js:173-224 | The machine's share of a tick keeps the no-stale-callback invariant. With no active state it changes nothing. A launch always ends the tick in jump. Without the event and without a launch, it is exactly the machine's `Update` with the stick's intent. |
| `Controller.Tick` | src/player-entity.js:160-237 | Until a state is active the tick changes nothing at all. Otherwise the floor flag comes only from the collision, a grounded jump press ends in jump, the capsule radius is kept, and the no-stale-callback invariant holds. The machine's share is exactly `MachineTick` with the stick's classification, the mixer's event and the grounded jump press. So without the event and without a press, the machine receives exactly the stick's classification. Without a hit, the velocity is fixed: airborne, the pushed velocity (gain 25) with y lowered by 80·dt, scaled by 1 + 0.1·decay; grounded with a press, the pushed velocity (gain 100) with y set to 30, scaled by 1 + decay; grounded without a press, the pushed velocity scaled by 1 + decay. Also without a hit, the capsule, and with it the written position, moves by the damped velocity times dt. |
| `JumpLifecycle.LoadedIsLive` | src/player-entity.js:124-127 | After load the machine is in idle and satisfies the liveness invariant that the tick preserves. |
| `JumpLifecycle.SetStateIsLive` | src/player-state.js:30-33 | Every transition leaves the machine live. |
| `JumpLifecycle.UpdateIsLive` | src/player-state.js:75-130 | An intent keeps a live machine live. A jump records the intent. |
| `JumpLifecycle.FinishedIsLive` | src/player-state.js:47-73 | On a live machine whose jump recorded a stick intent, "finished" moves to that intent's state, which is never jump, and leaves no callback. It is a no-op when no jump is active. |
| `JumpLifecycle.MachineTickIsLive` | src/player-entity.js:173-224 | The machine's share of a tick keeps it live, for every stick intent, event and launch. |
| `JumpLifecycle.JumpHoldsWithoutFinish` | src/player-state.js:75-77 | Without the event, the same jump instance stays active through a tick, launch or not. |
| `JumpLifecycle.TickHoldsJumpWithoutFinish` | src/player-entity.js:160-224 | In a full controller tick without the mixer's event, an active jump instance stays active whatever the stick or the jump key say. |
| `JumpLifecycle.TickEndsJumpOnFinish` | src/player-entity.js:160-224 | In a full controller tick that carries the mixer's event, and with no grounded jump press, an active jump ends. The new state is the one the stick's classification asks for, and it is not a jump. |
| `JumpLifecycle.JumpEndsOnFinish` | src/player-state.js:47-63 | With the event, a jump ends in that tick. It goes to the stick's state, or, on a launch, to a fresh jump instance that holds the only subscription. |
| `JumpLifecycle.TickIsLive` | src/player-entity.js:160-237 | The controller's tick keeps its machine live, so an active jump can always be ended by its event. |
| `JumpLifecycle.StrandedJump` | src/player-state.js:47-69 | In isolation, a jump that finishes with no recorded stick intent stays active with no callback left. Neither further events nor intents move it. |

## Left out

- Asset loading (FBX and GLTF loaders, the loading manager, scene traversal): asynchronous I/O. The loaded clips enter the model only as the action map handed to `AnimationsLoaded`, with positive clip lengths.
- Input devices (the on-screen joystick and the keyboard poll): `x`, `y` and the jump press are tick inputs.
- The quaternion turn and the forward-axis computation, and `Math.exp` damping: transcendental floating-point maths. The forward axis and the decay factor are tick inputs.
- The octree capsule intersection and capsule translation internals: foreign code, and their imports are commented out in the source. The intersection is an optional tick input, and translation moves both end points.
- Mixer internals: the weight interpolation of `crossFadeFrom`, its fade-out of the previous action, `mixer.update` and the decision of when "finished" fires. An action records only the parameters the states pass in, and the event is a tick input.
- The `load.character` and `player.action` broadcasts: event plumbing with no decision logic.
- `entity.js`, `entity-manager.js` and `finite-state-machine.js` are not part of this model. Component registration, entity lookup, the unregistered-name case of `SetState`, and any same-name guard in `SetState` are not modelled. No call site in the model passes the active state's own name or an unregistered name.
- Top-level frame loop and rendering: not part of the locomotion core. Its clamp of the tick length to at most 1/30 is not needed by any contract here.
- Floating-point rounding: the model computes over exact reals, so the thresholds and constants compare exactly and no rounding error is modelled.
- `Controller.Tick`: in the source the stick intent and the mixer event reach the machine before the physics. The model computes the push and the launch decision first. The launch update depends only on the previous floor flag and the jump key, and the machine never changes either, so the order changes no result.

=== FILE: animation.dfy ===
/** The parameters the locomotion states set on a mixer action.  The mixer's
    own blending, clock and event dispatch are not modelled: an action is the
    record of what the states wrote into it. */
module Animation {
  import opened Wrappers

  /** The animation names the controller loads; they double as state names. */
  const IdleName: string := "idle"
  const WalkName: string := "walk"
  const WalkBackName: string := "walkBack"
  const RunName: string := "run"
  const JumpName: string := "jump"

  const AnimationNames: set<string> := {IdleName, WalkName, WalkBackName, RunName, JumpName}

  /** Blend window every state passes to `crossFadeFrom`. */
  const CrossfadeWindow: real := 0.25

  /** A crossfade request: fade in this action, fade out `from`, warping time scales. */
  datatype Fade = Fade(from: string, window: real, warp: bool)

  /** One clip's action: playhead, clip length, effective weight and time scale,
      whether it is enabled, set to play once, held on its last frame, playing,
      and the last crossfade requested on it. */
  datatype Action = Action(
    time: real,
    duration: real,
    weight: real,
    timeScale: real,
    enabled: bool,
    loopOnce: bool,
    clamp: bool,
    playing: bool,
    fade: Option<Fade>)

  /** Every animation has been loaded and has a clip of positive length.  The
      loading manager only starts the state machine once all five clips are in. */
  predicate Loaded(actions: map<string, Action>) {
    forall n :: n in AnimationNames ==> n in actions && actions[n].duration > 0.0
  }

  /** The playhead position as a fraction of the clip. */
  function Phase(a: Action): real
    requires a.duration > 0.0
  {
    a.time / a.duration
  }

  /** `play()`: start (or keep) the action running. */
  function Play(a: Action): Action {
    a.(playing := true)
  }

  /** `crossFadeFrom(prev, 0.25, true)` followed by `play()`. */
  function CrossfadeFrom(a: Action, from: string): Action {
    a.(fade := Some(Fade(from, CrossfadeWindow, true)), playing := true)
  }

  /** Playhead back to the start at full weight and normal speed. */
  function Restart(a: Action): Action {
    a.(time := 0.0, timeScale := 1.0, weight := 1.0)
  }

  /** Carry the previous action's playhead over in proportion to the clip lengths,
      so the new action resumes at the same point of its cycle. */
  function Retime(a: Action, prev: Action): (r: Action)
    requires a.duration > 0.0 && prev.duration > 0.0
    ensures r.duration == a.duration
    ensures Phase(r) == Phase(prev)
    ensures r.(time := a.time) == a
  {
    var ratio := a.duration / prev.duration;
    var t := prev.time * ratio;
    PhaseOfRetimed(prev.time, prev.duration, a.duration);
    a.(time := t)
  }

  /** Scaling the playhead by the clip-length ratio keeps the fraction of the cycle. */
  lemma PhaseOfRetimed(t: real, dPrev: real, dCur: real)
    requires dPrev > 0.0 && dCur > 0.0
    ensures (t * (dCur / dPrev)) / dCur == t / dPrev
  {
  }
}

=== FILE: character_fsm.dfy ===
/** The character's state machine: the registry `CharacterFSM._Init` builds,
    `SetState`, the per-tick `Update`, and the mixer's "finished" event reaching
    the jump state's callback. */
module CharacterFsm {
  import opened Wrappers
  import opened Animation
  import opened PlayerState

  /** The state classes a name can be registered against. */
  datatype StateClass = IdleState | WalkState | WalkBackState | RunState | JumpState

  /** `CharacterFSM._Init`: the names registered and the class behind each. */
  const Registry: map<string, StateClass> := map[
    IdleName := IdleState,
    WalkName := WalkState,
    WalkBackName := WalkBackState,
    RunName := RunState,
    JumpName := JumpState]

  /** Exactly the five animation names are registered. */
  lemma RegistryNames()
    ensures Registry.Keys == AnimationNames
    ensures forall n :: n in Registry ==> Construct(n, 0).Name() == n
  {
  }

  /** `new this._states[name](this)`: a fresh instance of the registered class.
      A jump instance gets callback identity `id` and no recorded intent. */
  function Construct(name: string, id: nat): (s: LocoState)
    requires name in Registry
    ensures s.Name() == name
    ensures s.Jump? ==> s.id == id && s.moving == None
  {
    match Registry[name]
    case IdleState => Idle
    case WalkState => Walk
    case WalkBackState => WalkBack
    case RunState => Run
    case JumpState => Jump(id, None)
  }

  /** The machine: active state (none before the first `SetState`), the shared
      action map reached through the proxy, the ids of jump callbacks subscribed
      to the mixer's "finished" event, and the id the next instance will get. */
  datatype Machine = Machine(
    current: Option<LocoState>,
    actions: map<string, Action>,
    listeners: set<nat>,
    nextId: nat)

  /** The callback the active state may legitimately have subscribed. */
  function OwnListener(current: Option<LocoState>): set<nat> {
    if current.Some? && current.value.Jump? then {current.value.id} else {}
  }

  /** No stale callback: the only subscription, if any, belongs to the active
      jump, whose id was handed out before; and once a state is active every
      animation is loaded. */
  predicate Valid(m: Machine) {
    && m.listeners <= OwnListener(m.current)
    && (m.current.Some? && m.current.value.Jump? ==> m.current.value.id < m.nextId)
    && (m.current.Some? ==> Loaded(m.actions))
  }

  /** The machine before any state is set, over an action map. */
  function Fresh(actions: map<string, Action>): (m: Machine)
    ensures Valid(m) && m.current.None? && m.listeners == {}
  {
    Machine(None, actions, {}, 0)
  }

  /** `SetState(name)`: the old state's `Exit`, a fresh instance of the named
      class, then its `Enter(prevState)`.  Afterwards the only subscribed
      callback is the new jump's own: an exited jump leaves none behind. */
  function SetState(m: Machine, name: string): (r: Machine)
    requires Valid(m) && name in Registry && Loaded(m.actions)
    ensures Valid(r)
    ensures r.current == Some(Construct(name, m.nextId))
    ensures r.listeners == OwnListener(r.current)
    ensures m.current.Some? && m.current.value.Jump? ==> m.current.value.id !in r.listeners
    ensures r.actions == Enter(m.current, Construct(name, m.nextId), m.actions)
    ensures r.nextId == m.nextId + 1
  {
    var exited := if m.current.Some? then Cleanup(m.current.value, m.listeners) else m.listeners;
    var s := Construct(name, m.nextId);
    Machine(Some(s), Enter(m.current, s, m.actions), Subscribe(s, exited), m.nextId + 1)
  }

  /** `Update(dt, moving)`: nothing without an active state; the jump state
      records the intent; any other state switches where its table says. */
  function Update(m: Machine, intent: int): (r: Machine)
    requires Valid(m)
    ensures Valid(r)
    ensures m.current.None? ==> r == m
    ensures m.current.Some? ==> r.current.Some?
    ensures m.current.Some? && m.current.value.Jump? ==>
      r == m.(current := Some(JumpUpdate(m.current.value, intent)))
    ensures m.current.Some? && !m.current.value.Jump? && Step(m.current.value, intent).None? ==> r == m
    ensures m.current.Some? && !m.current.value.Jump? && Step(m.current.value, intent).Some? ==>
      r.current.Some? && r.current.value.Name() == Step(m.current.value, intent).value
      && r.nextId == m.nextId + 1
      && r.actions == Enter(m.current, r.current.value, m.actions)
  {
    match m.current
    case None => m
    case Some(s) =>
      if s.Jump? then m.(current := Some(JumpUpdate(s, intent)))
      else match Step(s, intent)
        case None => m
        case Some(target) => SetState(m, target)
  }

  /** The mixer dispatching "finished": the subscribed callback runs the active
      jump's `_Finished`, which unsubscribes first and then switches on the
      recorded intent.  With nothing subscribed the event changes nothing. */
  function Finished(m: Machine): (r: Machine)
    requires Valid(m)
    ensures Valid(r)
    ensures m.listeners == {} ==> r == m
    ensures m.listeners != {} ==> r.listeners == {}
    ensures m.listeners != {} && FinishTarget(m.current.value.moving).Some? ==>
      r.current.Some? && r.current.value.Name() == FinishTarget(m.current.value.moving).value
      && r.actions == Enter(m.current, r.current.value, m.actions)
    ensures m.listeners != {} && FinishTarget(m.current.value.moving).None? ==>
      r == m.(listeners := {})
  {
    if m.listeners == {} then m
    else
      var s := m.current.value;
      var cleaned := m.(listeners := Cleanup(s, m.listeners));
      match FinishTarget(s.moving)
      case None => cleaned
      case Some(target) => SetState(cleaned, target)
  }
}

=== FILE: jump_lifecycle.dfy ===
/** The jump state inside the controller's tick: its "finished" callback stays
    subscribed for exactly as long as it is active, it holds until that event
    fires, and the event always takes it to the state the stick asks for. */
module JumpLifecycle {
  import opened Wrappers
  import opened Animation
  import opened PlayerState
  import opened CharacterFsm
  import opened Controller

  /** A live machine: valid, and an active jump still has its callback
      subscribed, so the mixer's "finished" event can reach it. */
  predicate Live(m: Machine) {
    Valid(m) && (m.current.Some? && m.current.value.Jump? ==> m.current.value.id in m.listeners)
  }

  /** Once the animations are loaded the machine is live. */
  lemma LoadedIsLive(c: Controller, actions: map<string, Action>)
    requires Valid(c.fsm) && c.fsm.current.None? && Loaded(actions)
    ensures Live(AnimationsLoaded(c, actions).fsm)
    ensures AnimationsLoaded(c, actions).fsm.current == Some(Idle)
  {
  }

  /** Every transition into the jump state subscribes the new instance. */
  lemma {:induction false} SetStateIsLive(m: Machine, name: string)
    requires Valid(m) && name in Registry && Loaded(m.actions)
    ensures Live(SetState(m, name))
  {
    var r := SetState(m, name);
    assert r.listeners == OwnListener(r.current);
  }

  /** An intent from the stick keeps a live machine live; a jump records it. */
  lemma UpdateIsLive(m: Machine, intent: int)
    requires Live(m)
    ensures Live(Update(m, intent))
    ensures m.current.Some? && m.current.value.Jump? ==> Update(m, intent).current.value.moving == Some(intent)
  {
    if m.current.Some? && !m.current.value.Jump? && Step(m.current.value, intent).Some? {
      SetStateIsLive(m, Step(m.current.value, intent).value);
    }
  }

  /** The "finished" event on a live machine whose jump last recorded a stick
      intent (0..3) leaves the jump for that intent's state and leaves no
      callback subscribed; on any other live machine it changes nothing. */
  lemma FinishedIsLive(m: Machine)
    requires Live(m)
    requires m.current.Some? && m.current.value.Jump? ==>
      m.current.value.moving.Some? && 0 <= m.current.value.moving.value <= 3
    ensures Live(Finished(m))
    ensures m.current.Some? && m.current.value.Jump? ==>
      && Finished(m).current.Some?
      && Finished(m).current.value.Name() == IntentTarget(m.current.value.moving.value).value
      && !Finished(m).current.value.Jump?
      && Finished(m).listeners == {}
    ensures !(m.current.Some? && m.current.value.Jump?) ==> Finished(m) == m
  {
    if m.current.Some? && m.current.value.Jump? {
      var target := FinishTarget(m.current.value.moving).value;
      SetStateIsLive(m.(listeners := {}), target);
    }
  }

  /** The machine's share of a tick keeps it live, whatever the stick says
      and whether or not the event fires or a jump launches. */
  lemma MachineTickIsLive(m: Machine, intent: int, finished: bool, launched: bool)
    requires Live(m) && 0 <= intent <= 3
    ensures Live(MachineTick(m, intent, finished, launched))
  {
    var updated := Update(m, intent);
    UpdateIsLive(m, intent);
    FinishedIsLive(updated);
    var dispatched := if finished then Finished(updated) else updated;
    UpdateIsLive(dispatched, JumpIntent);
  }

  /** Without the "finished" event the jump holds: the same instance stays
      active whatever the stick says, launch or not. */
  lemma JumpHoldsWithoutFinish(m: Machine, intent: int, launched: bool)
    requires Live(m) && m.current.Some? && m.current.value.Jump?
    ensures var r := MachineTick(m, intent, false, launched);
      r.current.Some? && r.current.value.Jump? && r.current.value.id == m.current.value.id
      && r.listeners == m.listeners && r.nextId == m.nextId
  {
  }

  /** With the "finished" event, a jump always ends: it goes to the state the
      stick asks for in that same tick, or, if a new jump launches, to a new
      jump instance with its own subscription. */
  lemma JumpEndsOnFinish(m: Machine, intent: int, launched: bool)
    requires Live(m) && m.current.Some? && m.current.value.Jump? && 0 <= intent <= 3
    ensures var r := MachineTick(m, intent, true, launched);
      && (!launched ==> r.current.Some? && r.current.value.Name() == IntentTarget(intent).value && !r.current.value.Jump?)
      && (launched ==> r.current.Some? && r.current.value.Jump? && r.current.value.id != m.current.value.id
                       && r.listeners == {r.current.value.id})
  {
    var updated := Update(m, intent);
    UpdateIsLive(m, intent);
    FinishedIsLive(updated);
  }

  /** The controller's tick keeps its machine live: at the moment the mixer
      can fire "finished", the jump has always just recorded the stick's
      intent, which is never 4, so the jump state is never left behind
      without a callback. */
  lemma TickIsLive(c: Controller, f: Frame)
    requires Live(c.fsm)
    ensures Live(Tick(c, f).fsm)
  {
    if c.fsm.current.Some? {
      var v1 := Accelerate(c.velocity, f.forward, f.y, f.dt, c.onFloor);
      var vertical := GravityOrJump(v1, f.decay, c.onFloor, f.jumpPressed, f.dt);
      MachineTickIsLive(c.fsm, Classify(f.x, f.y), f.finished, vertical.launched);
    }
  }

  /** In the controller's tick, an active jump ends exactly when the mixer's
      "finished" event fires (unless a new jump launches in the same tick), and
      goes to the state the stick asks for. */
  lemma TickEndsJumpOnFinish(c: Controller, f: Frame)
    requires Live(c.fsm) && c.fsm.current.Some? && c.fsm.current.value.Jump?
    requires f.finished && !(c.onFloor && f.jumpPressed)
    ensures Tick(c, f).fsm.current.Some?
    ensures Tick(c, f).fsm.current.value.Name() == IntentTarget(Classify(f.x, f.y)).value
    ensures !Tick(c, f).fsm.current.value.Jump?
  {
    JumpEndsOnFinish(c.fsm, Classify(f.x, f.y), false);
  }

  /** In the controller's tick, without the "finished" event the same jump
      instance stays active, whatever the stick says. */
  lemma TickHoldsJumpWithoutFinish(c: Controller, f: Frame)
    requires Live(c.fsm) && c.fsm.current.Some? && c.fsm.current.value.Jump? && !f.finished
    ensures Tick(c, f).fsm.current.Some? && Tick(c, f).fsm.current.value.Jump?
    ensures Tick(c, f).fsm.current.value.id == c.fsm.current.value.id
  {
    JumpHoldsWithoutFinish(c.fsm, Classify(f.x, f.y), c.onFloor && f.jumpPressed);
  }

  /** In isolation, a jump finishing with no stick intent recorded (or with
      intent 4) is stranded: it stays active, its callback is gone, and
      neither further intents nor further events move it. */
  lemma StrandedJump(m: Machine, intent: int)
    requires Valid(m) && m.current.Some? && m.current.value.Jump? && m.current.value.id in m.listeners
    requires FinishTarget(m.current.value.moving).None?
    ensures var r := Finished(m);
      && r.current == m.current && r.listeners == {}
      && Finished(r) == r
      && Update(r, intent).current.value.Jump? && Update(r, intent).listeners == {}
  {
  }
}

=== FILE: locomotion_traces.dfy ===
/** Runs of the state machine over sequences of intents: what the transition
    table, the jump state's deafness to intents and the load-time start imply
    over many ticks. */
module LocomotionTraces {
  import opened Wrappers
  import opened Animation
  import opened PlayerState
  import opened CharacterFsm

  /** The machine after feeding `intents` to `Update` one per tick. */
  function Drive(m: Machine, intents: seq<int>): (r: Machine)
    requires Valid(m)
    ensures Valid(r)
    ensures m.current.Some? ==> r.current.Some?
    decreases |intents|
  {
    if intents == [] then m else Drive(Update(m, intents[0]), intents[1..])
  }

  /** The active state's name after each tick of a run. */
  function Trace(m: Machine, intents: seq<int>): (r: seq<string>)
    requires Valid(m) && m.current.Some?
    ensures |r| == |intents|
    decreases |intents|
  {
    if intents == [] then []
    else
      var next := Update(m, intents[0]);
      [next.current.value.Name()] + Trace(next, intents[1..])
  }

  /** The number of transitions a run performs: one instance is built per `SetState`. */
  function Transitions(m: Machine, intents: seq<int>): (n: int)
    requires Valid(m)
  {
    Drive(m, intents).nextId - m.nextId
  }

  /** Whatever the intents, a run never builds fewer instances than it started with. */
  lemma {:induction false} RunCountsUp(m: Machine, intents: seq<int>)
    requires Valid(m)
    ensures Drive(m, intents).nextId >= m.nextId
    ensures Transitions(m, intents) <= |intents|
    decreases |intents|
  {
    if intents != [] {
      RunCountsUp(Update(m, intents[0]), intents[1..]);
    }
  }

  /** The same intent twice in a row causes no second transition: the state
      reached by the first tick already ignores that intent. */
  lemma RepeatedIntentIsNoTransition(m: Machine, intent: int)
    requires Valid(m) && m.current.Some?
    ensures var once := Update(m, intent);
      var twice := Update(once, intent);
      twice.current.value.Name() == once.current.value.Name()
      && twice.actions == once.actions
      && twice.listeners == once.listeners
      && twice.nextId == once.nextId
  {
    var once := Update(m, intent);
    var s := once.current.value;
    if !s.Jump? {
      assert Step(s, intent).None?;
    }
  }

  /** Once in the jump state, no sequence of intents moves the machine: the same
      jump instance stays active, only the recorded intent changes, and no
      action or subscription is touched. */
  lemma {:induction false} JumpIgnoresIntents(m: Machine, intents: seq<int>)
    requires Valid(m) && m.current.Some? && m.current.value.Jump? && |intents| > 0
    ensures Drive(m, intents) == m.(current := Some(Jump(m.current.value.id, Some(intents[|intents| - 1]))))
    decreases |intents|
  {
    var next := Update(m, intents[0]);
    if |intents| > 1 {
      JumpIgnoresIntents(next, intents[1..]);
      assert intents[1..][|intents[1..]| - 1] == intents[|intents| - 1];
    }
  }

  /** Reference table on state names: every intent code points at its own
      state, other codes point nowhere, and the jump state ignores intents. */
  function NextName(name: string, intent: int): string {
    if name == JumpName then name
    else match IntentTarget(intent)
      case None => name
      case Some(target) => target
  }

  /** The names a run visits according to the reference table. */
  function NameTrace(name: string, intents: seq<int>): seq<string>
    decreases |intents|
  {
    if intents == [] then []
    else
      var next := NextName(name, intents[0]);
      [next] + NameTrace(next, intents[1..])
  }

  /** The number of name changes along the reference table. */
  function Changes(name: string, intents: seq<int>): nat
    decreases |intents|
  {
    if intents == [] then 0
    else
      var next := NextName(name, intents[0]);
      (if next != name then 1 else 0) + Changes(next, intents[1..])
  }

  /** One tick follows the reference table, and builds a new instance exactly
      when the name changes. */
  lemma UpdateFollowsTable(m: Machine, intent: int)
    requires Valid(m) && m.current.Some?
    ensures Update(m, intent).current.value.Name() == NextName(m.current.value.Name(), intent)
    ensures Update(m, intent).nextId == m.nextId + (if NextName(m.current.value.Name(), intent) != m.current.value.Name() then 1 else 0)
  {
  }

  /** Every run follows the reference table: the states it visits are the
      table's, and it performs one transition per change of name. */
  lemma {:induction false} TraceFollowsTable(m: Machine, intents: seq<int>)
    requires Valid(m) && m.current.Some?
    ensures Trace(m, intents) == NameTrace(m.current.value.Name(), intents)
    ensures Transitions(m, intents) == Changes(m.current.value.Name(), intents)
    decreases |intents|
  {
    if intents != [] {
      var next := Update(m, intents[0]);
      UpdateFollowsTable(m, intents[0]);
      TraceFollowsTable(next, intents[1..]);
    }
  }

  /** The reference table on the startup scenario's intents. */
  lemma StartupNames()
    ensures NameTrace(IdleName, [0, 0, 1, 1, 2, 2, 0]) == [IdleName, IdleName, WalkName, WalkName, RunName, RunName, IdleName]
    ensures Changes(IdleName, [0, 0, 1, 1, 2, 2, 0]) == 3
  {
  }

  /** Starting from the idle state set once the animations have loaded, the
      intents 0,0,1,1,2,2,0 visit idle, idle, walk, walk, run, run, idle, with
      exactly three transitions. */
  lemma StartupScenario(actions: map<string, Action>)
    requires Loaded(actions)
    ensures var start := SetState(Fresh(actions), IdleName);
      && Trace(start, [0, 0, 1, 1, 2, 2, 0]) == [IdleName, IdleName, WalkName, WalkName, RunName, RunName, IdleName]
      && Transitions(start, [0, 0, 1, 1, 2, 2, 0]) == 3
  {
    var start := SetState(Fresh(actions), IdleName);
    TraceFollowsTable(start, [0, 0, 1, 1, 2, 2, 0]);
    StartupNames();
  }
}

=== FILE: player_entity.dfy ===
/** The character controller's per-tick decisions: the readiness guard, the
    classification of the stick into an intent, the grounded-only jump, gravity
    and the airborne adjustments, damping, and the collision response.  The
    rotation, the forward vector, the exponential decay and the intersection
    query are inputs of the tick. */
module Controller {
  import opened Wrappers
  import opened Animation
  import opened PlayerState
  import opened CharacterFsm
  import opened Vector

  /** `this.GRAVITY`. */
  const Gravity: real := 80.0
  /** Vertical speed a jump launches with. */
  const JumpSpeed: real := 30.0
  /** Forward acceleration gain on the floor and in the air. */
  const GroundGain: real := 100.0
  const AirGain: real := 25.0
  /** Factor applied to the damping while airborne ("small air resistance"). */
  const AirDamping: real := 0.1

  /** The collision capsule: two end points and a radius. */
  datatype Capsule = Capsule(start: Vec3, end: Vec3, radius: real)

  /** The capsule the controller starts with. */
  const InitialCollider: Capsule := Capsule(Vec3(0.0, 0.35, 0.0), Vec3(0.0, 1.0, 0.0), 0.35)

  /** `Capsule.translate`: both end points move by `d`. */
  function Translate(c: Capsule, d: Vec3): Capsule {
    c.(start := Add(c.start, d), end := Add(c.end, d))
  }

  /** What the level's capsule intersection reports: contact normal and depth. */
  datatype Contact = Contact(normal: Vec3, depth: real)

  /** The controller's simulation state. */
  datatype Controller = Controller(fsm: Machine, velocity: Vec3, collider: Capsule, onFloor: bool)

  /** The position `Update` writes to the transform and the entity. */
  function Position(c: Controller): Vec3 {
    c.collider.end
  }

  /** The controller as `_Init` leaves it: no active state, no animations yet,
      at rest, off the floor, with the initial capsule. */
  function Init(): (c: Controller)
    ensures Valid(c.fsm) && c.fsm.current.None?
    ensures c.velocity == Zero && !c.onFloor && c.collider == InitialCollider
  {
    Controller(Fresh(map[]), Zero, InitialCollider, false)
  }

  /** The loading manager's `onLoad`: every clip is in, the machine starts in idle. */
  function AnimationsLoaded(c: Controller, actions: map<string, Action>): (r: Controller)
    requires Valid(c.fsm) && c.fsm.current.None? && Loaded(actions)
    ensures Valid(r.fsm) && r.fsm.current == Some(Idle) && r.fsm.listeners == {}
    ensures r.velocity == c.velocity && r.collider == c.collider && r.onFloor == c.onFloor
  {
    c.(fsm := SetState(c.fsm.(actions := actions), IdleName))
  }

  /** The stick's classification into an intent code, as the code writes it:
      start at idle, then walking, running and walking back each overwrite
      what came before.  The later test wins: walking back beats running,
      running beats walking; jumping never comes out of the stick. */
  function Classify(x: real, y: real): (intent: int)
    ensures 0 <= intent <= 3
    ensures intent == WalkBackIntent <==> y < -0.1
    ensures intent == RunIntent <==> y > 0.5
    ensures intent == WalkIntent <==> -0.1 <= y <= 0.5 && (y > 0.1 || Abs(x) > 0.1)
    ensures intent == IdleIntent <==> -0.1 <= y <= 0.1 && Abs(x) <= 0.1
  {
    var walking := if y > 0.1 || Abs(x) > 0.1 then WalkIntent else IdleIntent;
    var running := if y > 0.5 then RunIntent else walking;
    if y < -0.1 then WalkBackIntent else running
  }

  /** The forward acceleration gain for the current floor contact. */
  function Gain(onFloor: bool): real {
    if onFloor then GroundGain else AirGain
  }

  /** Push along the (rotated) forward axis, scaled by the stick, the tick and
      the gain: 100 on the floor, 25 in the air. */
  function Accelerate(v: Vec3, forward: Vec3, y: real, dt: real, onFloor: bool): (r: Vec3)
    ensures onFloor ==> r == Add(v, Scale(forward, 100.0 * y * dt))
    ensures !onFloor ==> r == Add(v, Scale(forward, 25.0 * y * dt))
  {
    AddScaled(v, forward, y * dt * Gain(onFloor))
  }

  /** The airborne push is a quarter of the grounded one, in the same direction. */
  lemma AirControlIsWeak(v: Vec3, forward: Vec3, y: real, dt: real)
    ensures var ground := Accelerate(v, forward, y, dt, true);
      var air := Accelerate(v, forward, y, dt, false);
      && air.x - v.x == (ground.x - v.x) / 4.0
      && air.y - v.y == (ground.y - v.y) / 4.0
      && air.z - v.z == (ground.z - v.z) / 4.0
  {
  }

  /** Vertical velocity and damping after the floor test, and whether a jump launched. */
  datatype Vertical = Vertical(velocity: Vec3, damping: real, launched: bool)

  /** The `if (!onFloor) … else if (jump)` block: in the air, gravity pulls and
      damping weakens; on the floor, a jump press sets the launch speed; on the
      floor without a press nothing changes.  Only the vertical speed moves. */
  function GravityOrJump(v: Vec3, damping: real, onFloor: bool, jumpPressed: bool, dt: real): (r: Vertical)
    ensures r.launched <==> onFloor && jumpPressed
    ensures r.velocity.x == v.x && r.velocity.z == v.z
    ensures !onFloor ==> r.velocity.y == v.y - Gravity * dt && r.damping == damping * AirDamping
    ensures onFloor ==> r.damping == damping
    ensures r.launched ==> r.velocity.y == JumpSpeed
    ensures onFloor && !jumpPressed ==> r.velocity == v
  {
    if !onFloor then
      Vertical(v.(y := v.y - Gravity * dt), damping * AirDamping, false)
    else if jumpPressed then
      Vertical(v.(y := JumpSpeed), damping, true)
    else
      Vertical(v, damping, false)
  }

  /** `v.addScaledVector(v, damping)`.  For a damping factor in (-1, 0], as
      `exp(-4 dt) - 1` is for any non-negative tick, no component changes sign
      and none grows. */
  function Damp(v: Vec3, damping: real): (r: Vec3)
    ensures r == Scale(v, 1.0 + damping)
    ensures -1.0 < damping <= 0.0 ==>
      && Shrinks(v.x, r.x) && Shrinks(v.y, r.y) && Shrinks(v.z, r.z)
  {
    DampShrinks(v.x, damping);
    DampShrinks(v.y, damping);
    DampShrinks(v.z, damping);
    AddScaled(v, v, damping)
  }

  /** `b` has the sign of `a` (or is zero) and is no larger in magnitude. */
  predicate Shrinks(a: real, b: real) {
    0.0 <= a * b && Abs(b) <= Abs(a)
  }

  lemma DampShrinks(a: real, damping: real)
    ensures -1.0 < damping <= 0.0 ==> Shrinks(a, a + a * damping)
  {
    if -1.0 < damping <= 0.0 {
      DampShrinksIn(a, damping);
    }
  }

  lemma DampShrinksIn(a: real, damping: real)
    requires -1.0 < damping <= 0.0
    ensures Shrinks(a, a + a * damping)
  {
    var k := 1.0 + damping;
    assert a + a * damping == a * k;
    assert a * (a * k) == (a * a) * k;
    assert a * a >= 0.0;
    if a < 0.0 {
      assert Abs(a * k) == -(a * k);
    }
  }

  /** The result of the collision pass. */
  datatype Collision = Collision(velocity: Vec3, collider: Capsule, onFloor: bool)

  /** `playerCollisions`: the floor flag is cleared, then set exactly when the
      capsule hits something whose normal points up.  A hit that is not floor
      removes the velocity's component along the normal (slide); any hit pushes
      the capsule out along the normal by the depth.  No hit changes nothing
      but the flag. */
  function Collide(v: Vec3, collider: Capsule, hit: Option<Contact>): (r: Collision)
    ensures r.onFloor <==> hit.Some? && hit.value.normal.y > 0.0
    ensures hit.None? ==> r.velocity == v && r.collider == collider
    ensures hit.Some? ==> r.collider == Translate(collider, Scale(hit.value.normal, hit.value.depth))
    ensures r.onFloor ==> r.velocity == v
    ensures hit.Some? && !r.onFloor && Dot(hit.value.normal, hit.value.normal) == 1.0 ==>
      Dot(hit.value.normal, r.velocity) == 0.0
    ensures hit.Some? && !r.onFloor ==>
      forall t {:trigger Dot(t, r.velocity)} :: Dot(t, hit.value.normal) == 0.0 ==> Dot(t, r.velocity) == Dot(t, v)
  {
    match hit
    case None => Collision(v, collider, false)
    case Some(contact) =>
      var n := contact.normal;
      var onFloor := n.y > 0.0;
      var v' := if onFloor then v else AddScaled(v, n, -Dot(n, v));
      SlideIsOrthogonal(v, n);
      assert forall t | Dot(t, n) == 0.0 :: Dot(t, AddScaled(v, n, -Dot(n, v))) == Dot(t, v) by {
        forall t | Dot(t, n) == 0.0
          ensures Dot(t, AddScaled(v, n, -Dot(n, v))) == Dot(t, v)
        {
          SlideKeepsTangent(v, n, t);
        }
      }
      Collision(v', Translate(collider, Scale(n, contact.depth)), onFloor)
  }

  /** Removing the projection on a unit normal leaves nothing along it. */
  lemma SlideIsOrthogonal(v: Vec3, n: Vec3)
    ensures Dot(n, n) == 1.0 ==> Dot(n, AddScaled(v, n, -Dot(n, v))) == 0.0
  {
  }

  /** The slide keeps every direction across the normal: the velocity's
      component along any tangent of the normal is unchanged. */
  lemma SlideKeepsTangent(v: Vec3, n: Vec3, t: Vec3)
    requires Dot(t, n) == 0.0
    ensures Dot(t, AddScaled(v, n, -Dot(n, v))) == Dot(t, v)
  {
    var d := Dot(n, v);
    var w := AddScaled(v, n, -d);
    assert w == Vec3(v.x + n.x * -d, v.y + n.y * -d, v.z + n.z * -d);
    assert t.x * w.x == t.x * v.x - d * (t.x * n.x);
    assert t.y * w.y == t.y * v.y - d * (t.y * n.y);
    assert t.z * w.z == t.z * v.z - d * (t.z * n.z);
    assert d * (t.x * n.x) + d * (t.y * n.y) + d * (t.z * n.z) == d * Dot(t, n);
  }

  /** A capsule resting on flat ground (upward normal, no penetration) is left
      where it is, with its velocity, and is on the floor. */
  lemma RestingContactIsStable(v: Vec3, collider: Capsule)
    ensures Collide(v, collider, Some(Contact(Vec3(0.0, 1.0, 0.0), 0.0))) == Collision(v, collider, true)
  {
  }

  /** What one tick receives from outside the controller: the elapsed time,
      the stick, whether jump was pressed, whether the mixer's update fired the
      "finished" event, the forward axis after this tick's turn, the decay
      factor `exp(-4 dt) - 1`, and the intersection of the moved capsule. */
  datatype Frame = Frame(
    dt: real,
    x: real,
    y: real,
    jumpPressed: bool,
    finished: bool,
    forward: Vec3,
    decay: real,
    hit: Option<Contact>)

  /** The state machine's share of a tick: the stick's intent, then the
      mixer's "finished" event if it fired, then intent 4 again if a jump
      launched.  A launch always ends the tick in the jump state. */
  function MachineTick(m: Machine, intent: int, finished: bool, launched: bool): (r: Machine)
    requires Valid(m)
    ensures Valid(r)
    ensures m.current.None? ==> r == m
    ensures m.current.Some? ==> r.current.Some?
    ensures m.current.Some? && launched ==> r.current.value.Jump?
    ensures !finished && !launched ==> r == Update(m, intent)
  {
    var updated := Update(m, intent);
    var dispatched := if finished then Finished(updated) else updated;
    if launched then LaunchUpdate(dispatched) else dispatched
  }

  /** Intent 4 from any active state ends in the jump state. */
  function LaunchUpdate(m: Machine): (r: Machine)
    requires Valid(m)
    ensures Valid(r)
    ensures m.current.None? ==> r == m
    ensures m.current.Some? ==> r.current.Some? && r.current.value.Jump?
  {
    Update(m, JumpIntent)
  }

  /** `BasicCharacterController.Update`.  Until the machine has a state nothing
      happens.  Otherwise the stick's intent goes to the machine, the mixer may
      fire "finished", the velocity is pushed, pulled or launched, damped and
      integrated, and the collision pass runs.  A jump launch sends intent 4 to
      the machine a second time in the same tick. */
  function Tick(c: Controller, f: Frame): (r: Controller)
    requires Valid(c.fsm)
    ensures Valid(r.fsm)
    ensures c.fsm.current.None? ==> r == c
    ensures c.fsm.current.Some? ==> r.fsm.current.Some?
    ensures c.fsm.current.Some? ==> (r.onFloor <==> f.hit.Some? && f.hit.value.normal.y > 0.0)
    ensures c.fsm.current.Some? && c.onFloor && f.jumpPressed ==> r.fsm.current.value.Jump?
    ensures r.collider.radius == c.collider.radius
    ensures c.fsm.current.Some? && !f.finished && !(c.onFloor && f.jumpPressed) ==>
      r.fsm == Update(c.fsm, Classify(f.x, f.y))
    ensures c.fsm.current.Some? ==>
      r.fsm == MachineTick(c.fsm, Classify(f.x, f.y), f.finished, c.onFloor && f.jumpPressed)
    ensures c.fsm.current.Some? && f.hit.None? ==>
      r.collider == Translate(c.collider, Scale(r.velocity, f.dt))
      && Position(r) == Add(Position(c), Scale(r.velocity, f.dt))
    ensures c.fsm.current.Some? && f.hit.None? && !c.onFloor ==>
      var pushed := Accelerate(c.velocity, f.forward, f.y, f.dt, false);
      r.velocity == Scale(pushed.(y := pushed.y - Gravity * f.dt), 1.0 + AirDamping * f.decay)
    ensures c.fsm.current.Some? && f.hit.None? && c.onFloor && f.jumpPressed ==>
      var pushed := Accelerate(c.velocity, f.forward, f.y, f.dt, true);
      r.velocity == Scale(pushed.(y := JumpSpeed), 1.0 + f.decay)
      && r.velocity.y == JumpSpeed * (1.0 + f.decay)
    ensures c.fsm.current.Some? && f.hit.None? && c.onFloor && !f.jumpPressed ==>
      r.velocity == Scale(Accelerate(c.velocity, f.forward, f.y, f.dt, true), 1.0 + f.decay)
  {
    if c.fsm.current.None? then c
    else
      var v1 := Accelerate(c.velocity, f.forward, f.y, f.dt, c.onFloor);
      var vertical := GravityOrJump(v1, f.decay, c.onFloor, f.jumpPressed, f.dt);
      var fsm := MachineTick(c.fsm, Classify(f.x, f.y), f.finished, vertical.launched);
      var v2 := Damp(vertical.velocity, vertical.damping);
      var moved := Translate(c.collider, Scale(v2, f.dt));
      var collision := Collide(v2, moved, f.hit);
      Controller(fsm, collision.velocity, collision.collider, collision.onFloor)
  }
}

=== FILE: player_state.dfy ===
/** The five locomotion states: what each one's `Update` asks its machine to
    switch to, what each one's `Enter` does to the animation actions, and the
    jump state's completion callback. */
module PlayerState {
  import opened Wrappers
  import opened Animation

  /** Intent codes the controller feeds into `Update`. */
  const IdleIntent: int := 0
  const WalkIntent: int := 1
  const RunIntent: int := 2
  const WalkBackIntent: int := 3
  const JumpIntent: int := 4

  /** A state instance.  A jump instance carries the identity of its own
      "finished" callback and the last intent `Update` handed it (`moving`,
      unset until the first `Update`). */
  datatype LocoState = Idle | Walk | WalkBack | Run | Jump(id: nat, moving: Option<int>)
  {
    /** The `Name` getter of each state class. */
    function Name(): (n: string)
      ensures n in AnimationNames
    {
      match this
      case Idle => IdleName
      case Walk => WalkName
      case WalkBack => WalkBackName
      case Run => RunName
      case Jump(_, _) => JumpName
    }
  }

  /** Reference reading of the intent codes: the state each code designates,
      nothing for any other value. */
  function IntentTarget(intent: int): Option<string> {
    if intent == IdleIntent then Some(IdleName)
    else if intent == WalkIntent then Some(WalkName)
    else if intent == RunIntent then Some(RunName)
    else if intent == WalkBackIntent then Some(WalkBackName)
    else if intent == JumpIntent then Some(JumpName)
    else None
  }

  /** The `switch` in each state's `Update`: the name passed to `SetState`, if any.
      Every non-jump state goes where the intent points unless it is already
      there; the jump state never asks for a transition from `Update`. */
  function Step(s: LocoState, intent: int): (r: Option<string>)
    ensures s.Jump? ==> r == None
    ensures !s.Jump? ==> r == (if IntentTarget(intent) == Some(s.Name()) then None else IntentTarget(intent))
    ensures r.Some? ==> r.value != s.Name() && r.value in AnimationNames
  {
    match s
    case Idle =>
      if intent == 1 then Some(WalkName)
      else if intent == 2 then Some(RunName)
      else if intent == 3 then Some(WalkBackName)
      else if intent == 4 then Some(JumpName)
      else None
    case Walk =>
      if intent == 0 then Some(IdleName)
      else if intent == 2 then Some(RunName)
      else if intent == 3 then Some(WalkBackName)
      else if intent == 4 then Some(JumpName)
      else None
    case WalkBack =>
      if intent == 0 then Some(IdleName)
      else if intent == 1 then Some(WalkName)
      else if intent == 2 then Some(RunName)
      else if intent == 4 then Some(JumpName)
      else None
    case Run =>
      if intent == 0 then Some(IdleName)
      else if intent == 1 then Some(WalkName)
      else if intent == 3 then Some(WalkBackName)
      else if intent == 4 then Some(JumpName)
      else None
    case Jump(_, _) => None
  }

  /** The jump state's `Update`: it only records the intent. */
  function JumpUpdate(s: LocoState, intent: int): (r: LocoState)
    requires s.Jump?
    ensures r.Jump? && r.id == s.id && r.moving == Some(intent)
  {
    s.(moving := Some(intent))
  }

  /** The `switch` in `_Finished`: where a finished jump goes, given the last
      intent it recorded.  Codes 0..3 lead where they would from `Update`; a
      recorded jump, any other value, or no record, leads nowhere. */
  function FinishTarget(moving: Option<int>): (r: Option<string>)
    ensures moving.Some? && 0 <= moving.value <= 3 ==> r == IntentTarget(moving.value)
    ensures !(moving.Some? && 0 <= moving.value <= 3) ==> r == None
    ensures r.Some? ==> r.value != JumpName
  {
    match moving
    case Some(0) => Some(IdleName)
    case Some(1) => Some(WalkName)
    case Some(2) => Some(RunName)
    case Some(3) => Some(WalkBackName)
    case _ => None
  }

  /** `_Cleanup`, run by the jump's `Exit` and at the start of `_Finished`:
      unsubscribe this instance's "finished" callback from the mixer.  The other
      states' `Exit` does nothing. */
  function Cleanup(s: LocoState, listeners: set<nat>): (r: set<nat>)
    ensures r <= listeners
    ensures s.Jump? ==> s.id !in r
    ensures forall k :: k in listeners && !(s.Jump? && k == s.id) ==> k in r
  {
    if s.Jump? then listeners - {s.id} else listeners
  }

  /** The subscription a freshly entered state makes: a jump adds its own callback. */
  function Subscribe(s: LocoState, listeners: set<nat>): (r: set<nat>)
    ensures listeners <= r
    ensures s.Jump? ==> s.id in r
    ensures forall k :: k in r && !(s.Jump? && k == s.id) ==> k in listeners
  {
    if s.Jump? then listeners + {s.id} else listeners
  }

  /** Which previous states a locomotion state re-phases against rather than
      restarting: walk and walk-back from run, run from walk. */
  predicate Rephases(cur: string, prev: string) {
    (cur == WalkName && prev == RunName)
    || (cur == WalkBackName && prev == RunName)
    || (cur == RunName && prev == WalkName)
  }

  /** `Enter(prevState)` of the five states, on the map of loaded actions.
      Only the entered state's own action changes.  Without a previous state it
      is only played.  With one it is enabled, crossfaded from the previous
      state's action over 0.25 with warping, and played; before that, a jump is
      reset and set to play once and hold its last frame, a locomotion state
      entered from its re-phase partner takes over the partner's phase, and
      every other case restarts the playhead at full weight and normal speed. */
  function Enter(prev: Option<LocoState>, cur: LocoState, actions: map<string, Action>): (r: map<string, Action>)
    requires Loaded(actions)
    ensures Loaded(r) && r.Keys == actions.Keys
    ensures forall n :: n in actions && n != cur.Name() ==> r[n] == actions[n]
    ensures r[cur.Name()].duration == actions[cur.Name()].duration
    ensures prev.None? ==> r[cur.Name()] == actions[cur.Name()].(playing := true)
    ensures prev.Some? ==>
      var a := r[cur.Name()];
      a.fade == Some(Fade(prev.value.Name(), 0.25, true)) && a.playing && a.enabled
    ensures prev.Some? && cur.Jump? ==>
      var a := r[cur.Name()];
      a.loopOnce && a.clamp && a.time == 0.0
      && a.weight == actions[cur.Name()].weight && a.timeScale == actions[cur.Name()].timeScale
    ensures prev.Some? && Rephases(cur.Name(), prev.value.Name()) ==>
      var a := r[cur.Name()];
      var before := actions[cur.Name()];
      Phase(a) == Phase(actions[prev.value.Name()])
      && a.weight == before.weight && a.timeScale == before.timeScale
      && a.loopOnce == before.loopOnce && a.clamp == before.clamp
    ensures prev.Some? && !cur.Jump? && !Rephases(cur.Name(), prev.value.Name()) ==>
      var a := r[cur.Name()];
      var before := actions[cur.Name()];
      a.time == 0.0 && a.weight == 1.0 && a.timeScale == 1.0
      && a.loopOnce == before.loopOnce && a.clamp == before.clamp
  {
    var name := cur.Name();
    var a := actions[name];
    match prev
    case None => actions[name := Play(a)]
    case Some(p) =>
      var from := p.Name();
      var enabled := a.(enabled := true);
      var prepared :=
        if cur.Jump? then enabled.(time := 0.0, loopOnce := true, clamp := true)
        else if Rephases(name, from) then Retime(enabled, actions[from])
        else Restart(enabled);
      actions[name := CrossfadeFrom(prepared, from)]
  }
}

=== FILE: vector.dfy ===
/** Three-component vectors over the reals, with the few operations the
    controller uses (`add`, `multiplyScalar`, `addScaledVector`, `dot`). */
module Vector {

  datatype Vec3 = Vec3(x: real, y: real, z: real)

  const Zero: Vec3 := Vec3(0.0, 0.0, 0.0)

  function Add(a: Vec3, b: Vec3): Vec3 {
    Vec3(a.x + b.x, a.y + b.y, a.z + b.z)
  }

  function Scale(a: Vec3, k: real): Vec3 {
    Vec3(a.x * k, a.y * k, a.z * k)
  }

  /** `a.addScaledVector(b, k)`. */
  function AddScaled(a: Vec3, b: Vec3, k: real): Vec3 {
    Add(a, Scale(b, k))
  }

  function Dot(a: Vec3, b: Vec3): real {
    a.x * b.x + a.y * b.y + a.z * b.z
  }

  function Abs(r: real): real {
    if r < 0.0 then -r else r
  }
}

=== FILE: wrappers.dfy ===
/** The optional value used wherever the program tests a value for presence
    (an unset `moving`, a missing previous state, a missed intersection). */
module Wrappers {

  datatype Option<+T> = None | Some(value: T)
}
